=== FILE: README.md ===
# rust-webserver, modelled in Dafny

This is a model of the core of `rust-webserver`, a small multi-threaded HTTP server built on `mio`.

- **Reactor** (`src/event_loop.rs`). One thread polls the listening socket and every accepted stream. It gives each accepted connection an id from a counter that starts at 1; token 0 belongs to the listener. It then forwards every message about connection `id` to worker `id % num_workers`, over that worker's channel.
- **Worker handlers.** Each worker owns a table of connections.
  - `src/app_server.rs`: each connection gets its own duplicate of an application.
  - `src/lib.rs`: each connection gets a `Connection` record.
- **Routing** (`src/lib.rs`, `src/handler_lib.rs`). A request goes to the first rule whose regular expression matches its URI, in registration order. The not-found response is sent after it in every case.
- **Responses** (`src/http.rs`). A response is built in place (status, headers, body) and serialised as `version code reason CRLF`, then `name: value CRLF` per header, a blank line, the body and one extra CRLF.
- **Static files** (`src/http_file.rs`). The content type comes from the extension. `serve` either streams the file in 10 MB chunks or answers not-found.

## Modelling choices

- **Text.** Strings are their UTF-8 bytes (`Bytes.Bytes`, a sequence of `byte`). A `&str` literal is written with `Bytes.Ascii`.
- **In-place objects become classes.** `Response`, `Connection`, `WebServer`, both event handlers and the reactor are classes whose methods update their fields. `HandlerApp` is a class too. Its rule list and request builder are `const`: `src/handler_lib.rs` never reassigns them, and handling changes only the state of the objects they refer to.
  - A `Response` has an abstract value, `ResponseValue`. Each mutator is specified by a value function: `WithStatus`, `WithHeader` or `WithBody`.
  - The reactor's state is the pure `EventLoop.Reactor`. Its `Step` and `Run` functions specify `EventLoop.Poll`.
- **Hash-map order.** `as_bytes` walks a `HashMap`, whose iteration order is unspecified. `Response.AsBytes` therefore returns a ghost `order` and promises that it lists every header name exactly once, and that the bytes are `Wire(value, order)`.
- **Foreign answers become parameters.** The parameters stand for code the model cannot see:
  - the parsed request (`parsed: Option<Request>`);
  - regular-expression matching (`matches(pattern, text)`, about which nothing is assumed);
  - the file system (`HttpFile.Disk`, a map from full path to what `metadata`, `File::open` and the reads see);
  - the answers of `accept`/`register` (inside each `EventLoop.Event`).
- **Panics.** A Rust panic is an outcome:
  - `EventLoop.Step` yields `None` and `Run`'s flag is set;
  - `AppServer.TableAfter` yields `None`;
  - `WebServer.ReadyOutcome.Panicked`.
  The state is then left as it was.
- **Routing effects.** Handling a request is described by the effects it has on the response, in order. `Invoke(i)` means rule `i`'s handler runs, and `SendNotFound` is the canned 404.
- **File serving.** `serve` is described by the list of response calls it makes (`HttpFile.Action`). Those response methods are not defined in `src/http.rs`.
- **The application is a `HandlerApp`.** In `src/app_server.rs` the application is any implementation of the `App` trait. The model fixes it to the one implementation in the repository, `HandlerLib.HandlerApp`, so the effects of handling a connection are those of routing.
- **Unknown ids panic.** An unknown id panics the worker thread; it is not ignored. In `src/app_server.rs:44-46` this happens on a readable event for an id the worker's table does not hold. In `src/lib.rs:36-38`, `client_ready` takes no event kind, so any call with an unknown id panics. The model follows the code. `AppServer.HangupThenReadablePanics` shows that, for any table, once an error or hang-up has removed a connection, the next readable event for it panics.
- **Process does not reset the response.** `Connection::process` never resets its response. `Http.AnsweredTimesShape` shows that after `k` calls the body holds `k` copies of the page, with a Content-Length to match.

## Model

| member | source | states |
|---|---|---|
| Bytes.ParseDecimalOfDecimal | src/http.rs:45 | the decimal rendering `to_string` gives a length reads back as that length |
| Bytes.DecimalInjective | src/http.rs:45 | different lengths never render to the same Content-Length value |
| Http.Response.constructor | src/http.rs:27-34 | a new response is HTTP/1.1, 200 OK, no headers, empty body |
| Http.Response.SetStatus | src/http.rs:36-38 | only the status changes |
| Http.Response.SetHeader | src/http.rs:39-41 | insert with overwrite: the name maps to the value, every other header is kept, the key set grows by the name only |
| Http.Response.SetBodyBytes | src/http.rs:43-47 | the bytes are appended to the body and Content-Length is set to the decimal length of the whole body |
| Http.Response.SetBody | src/http.rs:49-51 | the same as appending the string's bytes |
| Http.WithBodyContentLength | src/http.rs:43-47 | after an append, Content-Length parses back to the old body length plus the appended length; other headers are unchanged |
| Http.WithBodiesCumulative | src/http.rs:43-47 | repeated appends: the body is the old body followed by every chunk, and Content-Length is the cumulative length, not the last chunk's |
| Http.Response.AsBytes | src/http.rs:53-67 | the output is status line, one line per header name (each name exactly once, in some order), blank line, body, CRLF |
| Http.WireFraming | src/http.rs:53-67 | with no line break inside a field, the first CRLF CRLF of the output ends the head, and what follows is the body plus CRLF, two bytes more than Content-Length |
| Http.Connection.constructor | src/http.rs:98-106 | parser at the request line, empty buffer, nothing parsed, a new response |
| Http.Connection.Process | src/http.rs:108-116 | the buffer grows by what was read, the parser state does not move, the same response gets 200, text/html and the page appended, and the written bytes are its wire form |
| Http.AnsweredTimesShape | src/http.rs:108-116 | after k calls the response is 200 OK with exactly Content-Type and Content-Length, its body is k copies of the page, and Content-Length equals the body length |
| HttpFile.LastDot | src/http_file.rs:41 | the position found holds a dot and no dot follows it; no position means no dot at all |
| HttpFile.GetMime | src/http_file.rs:40-57 | the answer is always one of the eight types; a path without a dot is binary data |
| HttpFile.GetMimeOfExtension | src/http_file.rs:41-52 | only the text after the last dot decides the type, whatever precedes it |
| HttpFile.MimeTypesDistinct | src/http_file.rs:43-52 | the eight answers are different strings |
| HttpFile.MimeOfExtensionInverse | src/http_file.rs:43-51 | each known type is answered for exactly its listed extensions (both directions) |
| HttpFile.UpperCaseExtensionIsBinary | src/http_file.rs:43-51 | extensions compare case-sensitively: `.HTML` is binary data |
| HttpFile.ReadCount | src/http_file.rs:22-25 | a read returns at most the buffer size, never past the end, and zero exactly at the end |
| HttpFile.FileSystem.constructor | src/http_file.rs:9-11 | keeps the root path |
| HttpFile.FileSystem.Serve | src/http_file.rs:12-38 | a path that is missing, not a regular file or unopenable gets only not-found; otherwise status 200, the type, the length and send come first, then non-empty chunks of at most 10 MB whose concatenation is the file's contents |
| Routing.FirstMatchFrom | src/lib.rs:44-49 | the index found matches and no earlier rule does; none found means no rule matches |
| Routing.Route | src/handler_lib.rs:37-43 | the `for … break` loop runs exactly the first matching rule's handler, then not-found |
| Routing.RespondInvokesFirstMatchOnly | src/lib.rs:44-50 | at most one handler runs; rule i runs iff it matches and no earlier rule does; not-found is always last |
| Routing.FirstMatchExtend | src/lib.rs:80-85 | appending rules never changes which rule serves a URI already served; an unserved URI goes to the first matching new rule |
| Routing.DuplicateRules | src/lib.rs:57-60 | same patterns in the same order, a new handler instance per rule, no two rules share one |
| Routing.Handler.Duplicate | src/handler_lib.rs:9 | a new instance of the same behaviour |
| HandlerLib.HandlerApp.constructor | src/handler_lib.rs:20-29 | one rule per route in order, the route text as pattern, a new handler instance of the same kind for each rule, no two rules sharing one, a new builder |
| HandlerLib.HandlerApp.Handle | src/handler_lib.rs:32-45 | no request yields nothing; a request runs the first matching handler and then not-found |
| HandlerLib.HandlerApp.Duplicate | src/handler_lib.rs:46-55 | same patterns and order, a new handler instance of the same kind for each rule, no two rules sharing one, a new builder |
| Routing.AnswerSamePatterns | src/handler_lib.rs:46-55 | a duplicate routes every request exactly as the original: routing depends on the patterns only, not on the handler objects |
| WebServer.AnchoredInjective | src/lib.rs:83 | anchoring with `^…$` keeps different patterns different |
| WebServer.WebServer.constructor | src/lib.rs:72-78 | host and worker count kept, no rules |
| WebServer.WebServer.AddHandler | src/lib.rs:80-85 | exactly one rule appended at the end, its pattern anchored; earlier rules untouched |
| WebServer.WebServerEventHandler.constructor | src/lib.rs:25-30 | the given rules, no clients |
| WebServer.WebServerEventHandler.NewClient | src/lib.rs:33-35 | id maps to a new connection on the stream (overwrite), other clients unchanged; the connection is in its initial state, with its own new response holding `Response::new()`'s value (HTTP/1.1, 200 OK, no headers, empty body) |
| WebServer.WebServerEventHandler.ClientReady | src/lib.rs:36-55 | panics iff the id is unknown; otherwise nothing without a request, else the first matching handler then not-found |
| WebServer.WebServerEventHandler.Duplicate | src/lib.rs:56-62 | same patterns and order, a new handler instance of the same kind for each rule, no two rules sharing one, no clients |
| EventLoop.StepInv | src/event_loop.rs:72-98 | one event keeps the partition invariant; an accepted connection gets the counter's value on worker id % N and the counter grows by one; other events go to worker token % N |
| EventLoop.RunInv | src/event_loop.rs:67-100 | a whole poll batch keeps the invariant and the counter never decreases |
| EventLoop.StartedInv | src/event_loop.rs:56-66 | the base case: with the listener's token 0 reserved and the counter at 1, the start state satisfies the invariant |
| EventLoop.RunBatchesInv | src/event_loop.rs:67-100 | any sequence of poll batches, up to the first panic, keeps the invariant and the worker count |
| EventLoop.ReachableInv | src/event_loop.rs:56-100 | every state `run` can reach from its start, whatever batches it polls, satisfies the partition invariant |
| EventLoop.EventsReachOwner | src/event_loop.rs:83-96 | a connection's events reach the worker that was given the connection |
| EventLoop.NewConnIdsUnique | src/event_loop.rs:83-86 | no connection id is handed out twice, across all workers |
| EventLoop.NoWorkersPanics | src/event_loop.rs:83-96 | with zero workers the first event handled panics (remainder by zero) |
| EventLoop.EventLoop.constructor | src/event_loop.rs:56-66 | one empty channel per worker, the counter at 1 |
| EventLoop.EventLoop.Poll | src/event_loop.rs:67-100 | a failed poll panics; otherwise the batch is handled in order exactly as `Run` says, stopping at the first panic |
| AppServer.AppWithStream.constructor | src/app_server.rs:16-21 | binds the application instance to the stream |
| AppServer.AppWithStream.Handle | src/app_server.rs:22-24 | the bound application handles the request |
| AppServer.AppEventHandler.constructor | src/app_server.rs:32-37 | empty table |
| AppServer.AppEventHandler.NewConn | src/app_server.rs:40-42 | the table becomes the old one with id mapped to the stream (overwrite), other entries unchanged; the entry's application is a new duplicate: same patterns, new handler instances of the same kinds, none shared, a new builder |
| AppServer.AppEventHandler.ConnEvent | src/app_server.rs:43-55 | readable with an unknown id panics and changes nothing; readable with a known id handles it first, with that connection's application; error or hang-up then removes the id; no entry is ever added or changed |
| AppServer.AppEventHandler.Duplicate | src/app_server.rs:56-58 | a new handler with an empty table and a new duplicate of the application: same patterns, new handler instances of the same kinds, none shared, a new builder |
| AppServer.AppEventHandler.Dispatch | src/event_loop.rs:40-47 | one message goes to `new_conn` or `conn_event`: the table becomes `TableAfter` of it, a panic leaves the table as it was, a new connection gets a fresh application and builder, and what is sent is `MsgEffects` of the table before it; the class invariant holds before and after: every entry is a duplicate of the template (same patterns, same handler kinds, no handler shared by two rules) that shares no object with the template or another entry |
| AppServer.AppEventHandler.ProcessEvents | src/event_loop.rs:37-48 | the messages are dispatched in order with their own ids and payloads: the final table (ids and their streams) and the panic flag are those of `TableAfterAll`; message i sends exactly what handling it in the table reached by then sends; on a panic the worker stops at the first message whose id is unknown; the class invariant it keeps says each connection holds its own duplicate of the application, with the template's patterns and handler kinds in order and no handler object used by two of its rules; the application object and request builder are shared neither with the template nor with another connection, no handler object is the template's, and no two connections share a handler object |
| AppServer.TableAfterAllAppend | src/event_loop.rs:38-48 | the loop handles messages one after another: a channel split in two is processed as its first part and then, unless that panicked, the second part from the table reached |
| AppServer.TableStaysInClass | src/event_loop.rs:83-96 | a worker sent only ids of its residue class holds only such ids |
| AppServer.WorkerTablesDisjoint | src/event_loop.rs:83-96 | under the reactor's invariant two different workers never hold the same connection id |
| AppServer.HangupThenReadablePanics | src/app_server.rs:44-54 | for every table and id: a readable event after an error or hang-up removed the id panics the worker, also right after the connection was added |

## Left out

- Sockets, `mio` polling, threads and channels are not modelled as such. A channel is the sequence of messages sent on it, and the workers run one after another.
- `TcpStream::read_to_end` and `write` are left out. What is read is a parameter, and a `write` is assumed to take all the bytes given; partial writes and I/O errors are not modelled.
- Regular-expression compilation and matching are left out. `Regex::new(..).unwrap()` panics on an invalid pattern; that panic is not modelled.
- The request parser (`RequestBuilder::read`, `Connection::read`) is not defined in any file of this model; its result is the parameter `parsed`.
- What a handler's `process` does to the response is not modelled; `Invoke(i)` records that it runs.
- `serve` assumes every read succeeds; a read error, which ends its loop early, is not modelled. The size `metadata` reports and the bytes the reads deliver are independent in `HttpFile.FileEntry`, so a file that changes in between is covered: the contract then states the announced length and the bytes actually sent, which differ.
- `println!` logging is left out.
- `next_conn` and ids are `usize` in the source; the model uses unbounded naturals, so wrap-around after 2^64 connections is not modelled.
- The status code is `u32` in the source; the model uses `nat`.
- The `send(..).unwrap()` panic when a worker thread has died is not modelled: a panicked worker's channel is simply not read any more.
- `process_events` blocks forever on an empty channel. The model handles the messages received so far.
- `EventLoop::run` duplicates the event handler once per worker; the model has the `Duplicate` methods, and `EventLoop` does not hold handler objects.
- `WebServer::run` and `AppServer` (`new`, `run`) only wire the parts together and are left out. `src/handlers.rs` and `src/main.rs` are not part of this model.
- `src/lib.rs` implements `new_client` and `client_ready`, but `EventHandler` declares `new_conn` and `conn_event`. It also calls `Response::new(client)` and `resp.not_found()`, which `src/http.rs` does not define. The model takes these methods as written.
- `src/http_file.rs` calls `set_length`, `send`, `send_data` and `set_not_found`, which `Response` in `src/http.rs` does not define. They are modelled as the list of `HttpFile.Action` calls, not as changes to a `Response`.
- `src/http.rs` `Request` has a `path` field, but routing reads `r.uri`. The model's `Routing.Request` has `uri`.
- Http.Response.AsBytes: the header order is stated up to an enumeration of the names, because `HashMap` iteration order is unspecified.

=== FILE: app_server.dfy ===
/** The worker side of src/app_server.rs, with the receive-and-dispatch
    loop of src/event_loop.rs that drives it.

    Each worker owns an `AppEventHandler` whose table maps connection ids
    to the connection's own application instance. The `App` capability is
    fixed to its one implementation, `HandlerLib.HandlerApp`. The effect of
    a message on the table (each id's stream) is `TableAfter`; `None` is the
    worker's panic. */
module AppServer {
  import opened Bytes
  import opened Http
  import opened Routing
  import opened HandlerLib
  import EventLoop

  /** An application instance bound to one connection's stream. */
  class AppWithStream {
    const app: HandlerApp
    const stream: TcpStream

    constructor (app: HandlerApp, stream: TcpStream)
      ensures this.app == app && this.stream == stream
    {
      this.app := app;
      this.stream := stream;
    }

    /** `AppWithStream::handle`: the application handles this stream. */
    method Handle(parsed: Option<Request>, matches: (Bytes, Bytes) -> bool) returns (effects: seq<Effect>)
      ensures effects == Answer(app.handlers, parsed, matches)
    {
      effects := app.Handle(parsed, matches);
    }
  }

  /** What a worker's table holds, abstractly: each id's stream. */
  type Table = map<nat, TcpStream>

  /** The table after one message; `None` is a panic (a readable event for
      an id the table does not hold). A new connection replaces any earlier
      entry; a readable event is handled first and an error or hang-up
      removes the id after. */
  function TableAfter(t: Table, m: EventLoop.Msg): Option<Table> {
    match m
    case NewConn(id, stream) => Some(t[id := stream])
    case ConnEvent(id, ev) =>
      if ev.readable && id !in t then None
      else if ev.error || ev.hup then Some(t - {id})
      else Some(t)
  }

  /** The table after a channel's messages in order, and whether the worker
      panicked (it then stops at the offending message). */
  function TableAfterAll(t: Table, msgs: seq<EventLoop.Msg>): (Table, bool)
    decreases |msgs|
  {
    if msgs == [] then (t, false)
    else match TableAfter(t, msgs[0])
      case None => (t, true)
      case Some(next) => TableAfterAll(next, msgs[1..])
  }

  /** What handling one message sends: a readable event for a known id is
      answered by routing the request the connection yields. */
  function MsgEffects(t: Table, m: EventLoop.Msg, rules: seq<HandlerRule>, parsed: Option<Request>,
                      matches: (Bytes, Bytes) -> bool): seq<Effect>
  {
    if m.ConnEvent? && m.event.readable && m.id in t then Answer(rules, parsed, matches) else []
  }

  /** Messages are handled one after another: a channel split in two is the
      first part, then (unless that panicked) the second from where it left. */
  lemma {:induction false} TableAfterAllAppend(t: Table, msgs: seq<EventLoop.Msg>, rest: seq<EventLoop.Msg>)
    ensures TableAfterAll(t, msgs + rest) ==
              if TableAfterAll(t, msgs).1 then TableAfterAll(t, msgs)
              else TableAfterAll(TableAfterAll(t, msgs).0, rest)
    decreases |msgs|
  {
    if msgs == [] {
      assert msgs + rest == rest;
    } else {
      assert (msgs + rest)[0] == msgs[0];
      assert (msgs + rest)[1..] == msgs[1..] + rest;
      match TableAfter(t, msgs[0])
      case None =>
      case Some(next) =>
        TableAfterAllAppend(next, msgs[1..], rest);
    }
  }

  /** A worker that is only ever sent ids of its own residue class holds
      only such ids. */
  lemma {:induction false} TableStaysInClass(t: Table, msgs: seq<EventLoop.Msg>, w: nat, n: nat)
    requires n >= 1
    requires forall k | k in t :: k % n == w
    requires forall j | 0 <= j < |msgs| :: msgs[j].id % n == w
    ensures forall k | k in TableAfterAll(t, msgs).0 :: k % n == w
    decreases |msgs|
  {
    if msgs != [] {
      match TableAfter(t, msgs[0])
      case None =>
      case Some(next) =>
        assert forall k | k in next :: k % n == w;
        TableStaysInClass(next, msgs[1..], w, n);
    }
  }

  /** The partition property: whatever the reactor has sent, two different
      workers never hold the same connection id. */
  lemma WorkerTablesDisjoint(s: EventLoop.Reactor, w1: nat, w2: nat)
    requires EventLoop.Inv(s)
    requires w1 < s.numWorkers && w2 < s.numWorkers && w1 != w2
    ensures TableAfterAll(map[], s.queues[w1]).0.Keys !! TableAfterAll(map[], s.queues[w2]).0.Keys
  {
    TableStaysInClass(map[], s.queues[w1], w1, s.numWorkers);
    TableStaysInClass(map[], s.queues[w2], w2, s.numWorkers);
  }

  /** An unknown id is fatal, not ignored: once an error or hang-up has
      removed a connection, a readable event for it panics the worker,
      whatever the table held, and also right after the connection came. */
  lemma HangupThenReadablePanics(t: Table, id: nat, stream: TcpStream, e1: EventLoop.Ready, e2: EventLoop.Ready)
    requires e1.error || e1.hup
    requires e2.readable
    ensures TableAfterAll(t, [EventLoop.ConnEvent(id, e1), EventLoop.ConnEvent(id, e2)]).1
    ensures TableAfterAll(t, [EventLoop.NewConn(id, stream), EventLoop.ConnEvent(id, e1), EventLoop.ConnEvent(id, e2)])
            == (t[id := stream] - {id}, true)
  {
    var tail := [EventLoop.ConnEvent(id, e1), EventLoop.ConnEvent(id, e2)];
    assert tail[1..] == [EventLoop.ConnEvent(id, e2)];
    assert ([EventLoop.NewConn(id, stream)] + tail)[1..] == tail;
    assert [EventLoop.NewConn(id, stream), EventLoop.ConnEvent(id, e1), EventLoop.ConnEvent(id, e2)]
           == [EventLoop.NewConn(id, stream)] + tail;
    var added := t[id := stream];
    assert TableAfter(added, tail[0]) == Some(added - {id});
    assert TableAfter(added - {id}, tail[1]).None?;
    assert TableAfterAll(added - {id}, tail[1..]) == (added - {id}, true);
    assert TableAfterAll(added, tail) == (added - {id}, true);
  }

  /** What `duplicate` makes of `template`: the same patterns in the same
      order, a handler of the same kind for each rule, and no handler object
      shared by two of its rules. */
  ghost predicate DuplicateOf(a: HandlerApp, template: HandlerApp) {
    && SamePatterns(a.handlers, template.handlers)
    && (forall i | 0 <= i < |template.handlers| :: a.handlers[i].handler.kind == template.handlers[i].handler.kind)
    && (forall i, j | 0 <= i < j < |a.handlers| :: a.handlers[i].handler != a.handlers[j].handler)
  }

  /** The handler objects of an application's rules. */
  ghost function HandlerObjects(a: HandlerApp): set<Handler> {
    set i | 0 <= i < |a.handlers| :: a.handlers[i].handler
  }

  /** Each connection's application object and request builder are shared
      neither with the template nor with another connection, and none of
      its handler objects is the template's. */
  ghost predicate Separate(app: HandlerApp, conns: map<nat, AppWithStream>) {
    && (forall k | k in conns :: conns[k].app != app && conns[k].app.builder != app.builder)
    && (forall k1, k2 | k1 in conns && k2 in conns && k1 != k2 ::
          conns[k1].app != conns[k2].app && conns[k1].app.builder != conns[k2].app.builder)
    && (forall k, i | k in conns && 0 <= i < |conns[k].app.handlers| ::
          conns[k].app.handlers[i].handler !in HandlerObjects(app))
    && (forall k1, k2, i | k1 in conns && k2 in conns && k1 != k2 && 0 <= i < |conns[k1].app.handlers| ::
          conns[k1].app.handlers[i].handler !in HandlerObjects(conns[k2].app))
  }

  /** Removing a connection keeps the others separate. */
  lemma SeparateWithout(app: HandlerApp, conns: map<nat, AppWithStream>, id: nat)
    requires Separate(app, conns)
    ensures Separate(app, conns - {id})
  {
    var rest := conns - {id};
    assert forall k | k in rest :: k in conns && rest[k] == conns[k];
  }

  /** Each id's stream. */
  function StreamsOf(conns: map<nat, AppWithStream>): (t: Table)
    ensures t.Keys == conns.Keys
    ensures forall k | k in t :: t[k] == conns[k].stream
  {
    map k | k in conns :: conns[k].stream
  }

  lemma StreamsOfWithout(conns: map<nat, AppWithStream>, id: nat)
    ensures StreamsOf(conns - {id}) == StreamsOf(conns) - {id}
  {
  }

  lemma StreamsOfWith(conns: map<nat, AppWithStream>, id: nat, conn: AppWithStream)
    ensures StreamsOf(conns[id := conn]) == StreamsOf(conns)[id := conn.stream]
  {
  }

  /** Binding an id to an application that shares no object with the
      template or with any other connection keeps the table separate. */
  lemma SeparateWith(app: HandlerApp, conns: map<nat, AppWithStream>, id: nat, conn: AppWithStream)
    requires Separate(app, conns)
    requires conn.app != app && conn.app.builder != app.builder
    requires forall i | 0 <= i < |conn.app.handlers| :: conn.app.handlers[i].handler !in HandlerObjects(app)
    requires forall k | k in conns && k != id ::
               conns[k].app != conn.app && conns[k].app.builder != conn.app.builder
    requires forall k, i | k in conns && k != id && 0 <= i < |conn.app.handlers| ::
               conn.app.handlers[i].handler !in HandlerObjects(conns[k].app)
    requires forall k, i | k in conns && k != id && 0 <= i < |conns[k].app.handlers| ::
               conns[k].app.handlers[i].handler !in HandlerObjects(conn.app)
    ensures Separate(app, conns[id := conn])
  {
    var next := conns[id := conn];
    assert forall k | k in next && k != id :: k in conns && next[k] == conns[k];
  }

  class AppEventHandler {
    const app: HandlerApp
    var conns: map<nat, AppWithStream>

    /** The table's abstract value: each id's stream. */
    function Streams(): Table
      reads this
    {
      StreamsOf(conns)
    }

    /** Every connection's application is its own duplicate of the template. */
    ghost predicate Valid()
      reads this
    {
      (forall k | k in conns :: DuplicateOf(conns[k].app, app)) && Separate(app, conns)
    }

    /** `AppEventHandler::new`: an empty table. */
    constructor (app: HandlerApp)
      ensures this.app == app && conns == map[]
      ensures Valid() && Streams() == map[]
    {
      this.app := app;
      conns := map[];
    }

    /** `new_conn`: `id` gets a new duplicate of the application bound to
        `stream`, replacing any earlier entry; the other ids are untouched. */
    method NewConn(id: nat, stream: TcpStream)
      requires Valid()
      modifies this
      ensures Valid()
      ensures Streams() == old(Streams())[id := stream]
      ensures conns.Keys == old(conns).Keys + {id}
      ensures forall k | k in old(conns) && k != id :: conns[k] == old(conns)[k]
      ensures fresh(conns[id]) && fresh(conns[id].app) && fresh(conns[id].app.builder)
      ensures SamePatterns(conns[id].app.handlers, app.handlers)
      ensures forall i | 0 <= i < |app.handlers| ::
                conns[id].app.handlers[i].handler.kind == app.handlers[i].handler.kind &&
                fresh(conns[id].app.handlers[i].handler)
      ensures forall i, j | 0 <= i < j < |app.handlers| ::
                conns[id].app.handlers[i].handler != conns[id].app.handlers[j].handler
    {
      var instance := app.Duplicate();
      var conn := new AppWithStream(instance, stream);
      assert DuplicateOf(instance, app);
      SeparateWith(app, conns, id, conn);
      StreamsOfWith(conns, id, conn);
      conns := conns[id := conn];
    }

    /** `conn_event`: a readable event handles the connection (and panics
        if the id is unknown); then an error or hang-up removes the id.
        `parsed` is what the connection's request builder yields. */
    method ConnEvent(id: nat, event: EventLoop.Ready, parsed: Option<Request>, matches: (Bytes, Bytes) -> bool)
      returns (panicked: bool, effects: seq<Effect>)
      requires Valid()
      modifies this
      ensures Valid()
      ensures panicked <==> TableAfter(old(Streams()), EventLoop.ConnEvent(id, event)).None?
      ensures !panicked ==> Some(Streams()) == TableAfter(old(Streams()), EventLoop.ConnEvent(id, event))
      ensures panicked ==> conns == old(conns)
      ensures forall k | k in conns :: k in old(conns) && conns[k] == old(conns)[k]
      ensures effects == if event.readable && id in old(conns)
                         then Answer(old(conns)[id].app.handlers, parsed, matches) else []
      ensures effects == MsgEffects(old(Streams()), EventLoop.ConnEvent(id, event), app.handlers, parsed, matches)
    {
      panicked, effects := false, [];
      if event.readable {
        if id !in conns {
          return true, [];
        }
        effects := conns[id].Handle(parsed, matches);
        AnswerSamePatterns(conns[id].app.handlers, app.handlers, parsed, matches);
      }
      if event.error || event.hup {
        SeparateWithout(app, conns, id);
        StreamsOfWithout(conns, id);
        conns := conns - {id};
      }
    }

    /** `duplicate`: a new handler with a new duplicate of the application
        and an empty table. */
    method Duplicate() returns (h: AppEventHandler)
      ensures fresh(h) && fresh(h.app) && fresh(h.app.builder) && h.conns == map[]
      ensures SamePatterns(h.app.handlers, app.handlers)
      ensures forall i | 0 <= i < |app.handlers| ::
                h.app.handlers[i].handler.kind == app.handlers[i].handler.kind &&
                fresh(h.app.handlers[i].handler)
      ensures forall i, j | 0 <= i < j < |app.handlers| :: h.app.handlers[i].handler != h.app.handlers[j].handler
    {
      var instance := app.Duplicate();
      h := new AppEventHandler(instance);
    }

    /** The body of the receive loop: one message to `new_conn` or
        `conn_event`. */
    method Dispatch(m: EventLoop.Msg, parsed: Option<Request>, matches: (Bytes, Bytes) -> bool)
      returns (panicked: bool, effects: seq<Effect>)
      requires Valid()
      modifies this
      ensures Valid()
      ensures TableAfter(old(Streams()), m) == if panicked then None else Some(Streams())
      ensures panicked ==> Streams() == old(Streams())
      ensures m.NewConn? ==> m.id in conns && fresh(conns[m.id].app) && fresh(conns[m.id].app.builder)
      ensures effects == MsgEffects(old(Streams()), m, app.handlers, parsed, matches)
    {
      if m.NewConn? {
        NewConn(m.id, m.stream);
        panicked, effects := false, [];
      } else {
        panicked, effects := ConnEvent(m.id, m.event, parsed, matches);
      }
    }

    /** `process_events` (src/event_loop.rs): every message received, in
        order, goes to `new_conn` or `conn_event` with its own id and
        payload; a panic ends the worker. `parse(i)` is what the request
        builder yields if message `i` is a readable event, and `effects[i]`
        is what handling message `i` sent. */
    method ProcessEvents(channel: seq<EventLoop.Msg>, parse: nat -> Option<Request>,
                         matches: (Bytes, Bytes) -> bool)
      returns (panicked: bool, effects: seq<seq<Effect>>)
      requires Valid()
      modifies this
      ensures Valid()
      ensures (Streams(), panicked) == TableAfterAll(old(Streams()), channel)
      ensures |effects| <= |channel| && !TableAfterAll(old(Streams()), channel[..|effects|]).1
      ensures !panicked ==> |effects| == |channel|
      ensures panicked ==> (|effects| < |channel| &&
                TableAfter(TableAfterAll(old(Streams()), channel[..|effects|]).0, channel[|effects|]).None?)
      ensures forall i | 0 <= i < |effects| ::
                effects[i] == MsgEffects(TableAfterAll(old(Streams()), channel[..i]).0, channel[i],
                                         app.handlers, parse(i), matches)
    {
      ghost var start := Streams();
      effects := [];
      var i := 0;
      assert channel[..0] == [];
      while i < |channel|
        invariant i <= |channel| && |effects| == i
        invariant Valid()
        invariant TableAfterAll(start, channel[..i]) == (Streams(), false)
        invariant forall j | 0 <= j < i ::
                    effects[j] == MsgEffects(TableAfterAll(start, channel[..j]).0, channel[j],
                                             app.handlers, parse(j), matches)
      {
        var m := channel[i];
        TableAfterAllAppend(start, channel[..i], [m]);
        assert channel[..i + 1] == channel[..i] + [m];
        assert [m][1..] == [];
        var p, e := Dispatch(m, parse(i), matches);
        if p {
          TableAfterAllAppend(start, channel[..i], channel[i..]);
          assert channel[..i] + channel[i..] == channel;
          return true, effects;
        }
        effects := effects + [e];
        i := i + 1;
      }
      assert channel[..|channel|] == channel;
      panicked := false;
    }
  }
}

=== FILE: bytes.dfy ===
/** Byte strings shared by the whole model.

    A Rust `String`/`&str` is a UTF-8 byte vector, so text is modelled by its
    bytes; every literal the server uses is ASCII and is written through
    `Ascii`. Decimal rendering (`usize::to_string`, `format!("{}", u32)`) is
    `Decimal`, and `ParseDecimal` is its inverse. */
module Bytes {

  datatype Option<T> = None | Some(value: T)

  newtype byte = b: int | 0 <= b < 256

  type Bytes = seq<byte>

  const CR: byte := 13
  const LF: byte := 10
  const SP: byte := 32
  const COLON: byte := 58
  const DOT: byte := 46

  /** The line terminator of HTTP/1.1 (section 3 of RFC 7230). */
  const CRLF: Bytes := [CR, LF]

  predicate IsAscii(s: string) {
    forall i | 0 <= i < |s| :: s[i] < 128 as char
  }

  /** The bytes of an ASCII literal: one byte per character, same code. */
  function Ascii(s: string): (r: Bytes)
    requires IsAscii(s)
    ensures |r| == |s|
    ensures forall i | 0 <= i < |s| :: r[i] as int == s[i] as int
  {
    seq(|s|, i requires 0 <= i < |s| => s[i] as int as byte)
  }

  predicate IsDigit(b: byte) {
    48 <= b <= 57
  }

  /** No CR and no LF anywhere in `s`. */
  predicate NoLineBreak(s: Bytes) {
    forall i | 0 <= i < |s| :: s[i] != CR && s[i] != LF
  }

  /** The shortest decimal rendering of `n`, as `n.to_string()` produces it. */
  function Decimal(n: nat): (r: Bytes)
    ensures |r| >= 1
    ensures forall i | 0 <= i < |r| :: IsDigit(r[i])
    ensures |r| > 1 ==> r[0] != 48
  {
    if n < 10 then [(48 + n) as byte]
    else Decimal(n / 10) + [(48 + n % 10) as byte]
  }

  /** The value of a string of decimal digits (the reader's side of `Decimal`). */
  function ParseDecimal(s: Bytes): nat
    requires forall i | 0 <= i < |s| :: IsDigit(s[i])
  {
    if s == [] then 0
    else
      assert IsDigit(s[|s| - 1]);
      ParseDecimal(s[..|s| - 1]) * 10 + (s[|s| - 1] as int - 48)
  }

  /** Reading back a rendered number gives the number. */
  lemma {:induction false} ParseDecimalOfDecimal(n: nat)
    ensures ParseDecimal(Decimal(n)) == n
  {
    if n >= 10 {
      var d := Decimal(n);
      assert d[..|d| - 1] == Decimal(n / 10);
      ParseDecimalOfDecimal(n / 10);
    }
  }

  /** Rendering is injective: two numbers with the same rendering are equal. */
  lemma DecimalInjective(m: nat, n: nat)
    requires Decimal(m) == Decimal(n)
    ensures m == n
  {
    ParseDecimalOfDecimal(m);
    ParseDecimalOfDecimal(n);
  }

  /** A rendered number never contains a line break. */
  lemma DecimalNoLineBreak(n: nat)
    ensures NoLineBreak(Decimal(n))
  {
  }

  /** `k` copies of `s` one after the other. */
  function Repeat(s: Bytes, k: nat): (r: Bytes)
  {
    if k == 0 then [] else Repeat(s, k - 1) + s
  }

  lemma {:induction false} RepeatLength(s: Bytes, k: nat)
    ensures |Repeat(s, k)| == k * |s|
  {
    if k > 0 {
      RepeatLength(s, k - 1);
    }
  }

  /** The concatenation of a sequence of chunks. */
  function Flatten(chunks: seq<Bytes>): Bytes
  {
    if chunks == [] then [] else Flatten(chunks[..|chunks| - 1]) + chunks[|chunks| - 1]
  }

  lemma FlattenSnoc(chunks: seq<Bytes>, c: Bytes)
    ensures Flatten(chunks + [c]) == Flatten(chunks) + c
  {
    assert (chunks + [c])[..|chunks|] == chunks;
  }
}

=== FILE: event_loop.dfy ===
/** The reactor of src/event_loop.rs, run sequentially.

    Connection ids come from a counter that starts at 1 (token 0 is the
    listener's), and every message about id `k` goes to worker
    `k % numWorkers`. The worker channels are FIFO sequences of messages;
    threads, `poll`, `accept` and `register` are outside the model, and what
    the OS answers is part of each observed event. A Rust panic stops the
    reactor where it happens. */
module EventLoop {
  import opened Bytes
  import opened Http

  /** `SERVER`: the listener's token. */
  const SERVER: nat := 0

  /** The readiness kinds a socket event can carry. */
  datatype Ready = Ready(readable: bool, writable: bool, error: bool, hup: bool)

  datatype Msg =
    | NewConn(id: nat, stream: TcpStream)
    | ConnEvent(id: nat, event: Ready)

  /** What `accept` answers, and for an accepted stream whether `register`
      succeeds. */
  datatype Accept = Accepted(stream: TcpStream, registered: bool) | AcceptFailed

  /** One event of a poll batch; `accept` is only consulted for the listener. */
  datatype Event = Event(token: nat, kind: Ready, accept: Accept)

  datatype PollResult = PollError | Events(events: seq<Event>)

  /** The reactor's state: the counter and what has been sent to each worker. */
  datatype Reactor = Reactor(numWorkers: nat, nextConn: nat, queues: seq<seq<Msg>>)

  predicate WellFormed(s: Reactor) {
    |s.queues| == s.numWorkers
  }

  /** The state once `run` has created its workers. */
  function Started(numWorkers: nat): (s: Reactor)
    ensures WellFormed(s)
  {
    Reactor(numWorkers, 1, seq(numWorkers, _ => []))
  }

  function Post(s: Reactor, w: nat, m: Msg): Reactor
    requires w < |s.queues|
  {
    s.(queues := s.queues[w := s.queues[w] + [m]])
  }

  /** One event; `None` is a panic (accept or register failure, or a
      remainder by zero workers), which leaves the state as it was. */
  function Step(s: Reactor, e: Event): (r: Option<Reactor>)
    requires WellFormed(s)
    ensures r.Some? ==> WellFormed(r.value)
  {
    if e.token == SERVER then
      match e.accept
      case AcceptFailed => None
      case Accepted(stream, registered) =>
        if !registered || s.numWorkers == 0 then None
        else Some(Post(s, s.nextConn % s.numWorkers, NewConn(s.nextConn, stream)).(nextConn := s.nextConn + 1))
    else if s.numWorkers == 0 then None
    else Some(Post(s, e.token % s.numWorkers, ConnEvent(e.token, e.kind)))
  }

  /** A poll batch, in order; the flag says whether the reactor panicked. */
  function Run(s: Reactor, events: seq<Event>): (r: (Reactor, bool))
    requires WellFormed(s)
    ensures WellFormed(r.0)
    decreases |events|
  {
    if events == [] then (s, false)
    else match Step(s, events[0])
      case None => (s, true)
      case Some(t) => Run(t, events[1..])
  }

  // ---------------------------------------------------------------------
  // The partition invariant

  /** Every message sits in the queue of worker `id % numWorkers`, no id is
      the listener's 0, every announced id is below the counter, and each
      worker is announced its ids in increasing order. */
  ghost predicate Inv(s: Reactor) {
    && WellFormed(s)
    && s.nextConn >= 1
    && (forall w, j | 0 <= w < |s.queues| && 0 <= j < |s.queues[w]| ::
          s.queues[w][j].id != SERVER && s.queues[w][j].id % s.numWorkers == w)
    && (forall w, j | 0 <= w < |s.queues| && 0 <= j < |s.queues[w]| && s.queues[w][j].NewConn? ::
          s.queues[w][j].id < s.nextConn)
    && (forall w, i, j | 0 <= w < |s.queues| && 0 <= i < j < |s.queues[w]| &&
                         s.queues[w][i].NewConn? && s.queues[w][j].NewConn? ::
          s.queues[w][i].id < s.queues[w][j].id)
  }

  lemma StartedInv(numWorkers: nat)
    ensures Inv(Started(numWorkers))
  {
  }

  /** One event keeps the invariant. A new connection gets the counter's
      value, which then grows by exactly one; any other event leaves it. */
  lemma StepInv(s: Reactor, e: Event)
    requires Inv(s)
    ensures Step(s, e).Some? ==> Inv(Step(s, e).value)
    ensures Step(s, e).Some? ==> s.numWorkers >= 1
    ensures Step(s, e).Some? && e.token == SERVER ==>
              Step(s, e).value.nextConn == s.nextConn + 1 &&
              Step(s, e).value.queues[s.nextConn % s.numWorkers] ==
                s.queues[s.nextConn % s.numWorkers] + [NewConn(s.nextConn, e.accept.stream)]
    ensures Step(s, e).Some? && e.token != SERVER ==>
              Step(s, e).value.nextConn == s.nextConn &&
              Step(s, e).value.queues[e.token % s.numWorkers] ==
                s.queues[e.token % s.numWorkers] + [ConnEvent(e.token, e.kind)]
  {
    if Step(s, e).Some? {
      var t := Step(s, e).value;
      var w := if e.token == SERVER then s.nextConn % s.numWorkers else e.token % s.numWorkers;
      forall v, j | 0 <= v < |t.queues| && 0 <= j < |t.queues[v]|
        ensures t.queues[v][j].id != SERVER && t.queues[v][j].id % t.numWorkers == v
        ensures t.queues[v][j].NewConn? ==> t.queues[v][j].id < t.nextConn
      {
        if v != w || j < |s.queues[v]| {
          assert t.queues[v][j] == s.queues[v][j];
        }
      }
      forall v, i, j | 0 <= v < |t.queues| && 0 <= i < j < |t.queues[v]| &&
                       t.queues[v][i].NewConn? && t.queues[v][j].NewConn?
        ensures t.queues[v][i].id < t.queues[v][j].id
      {
        assert t.queues[v][i] == s.queues[v][i];
        if v != w || j < |s.queues[v]| {
          assert t.queues[v][j] == s.queues[v][j];
        }
      }
    }
  }

  /** A whole batch keeps the invariant, and the counter never goes down. */
  lemma {:induction false} RunInv(s: Reactor, events: seq<Event>)
    requires Inv(s)
    ensures Inv(Run(s, events).0)
    ensures Run(s, events).0.nextConn >= s.nextConn
    ensures Run(s, events).0.numWorkers == s.numWorkers
    decreases |events|
  {
    if events != [] {
      StepInv(s, events[0]);
      if Step(s, events[0]).Some? {
        RunInv(Step(s, events[0]).value, events[1..]);
      }
    }
  }

  /** Successive poll batches, each handled by `Run`; the first panic ends
      the reactor. */
  function RunBatches(s: Reactor, batches: seq<seq<Event>>): (r: (Reactor, bool))
    requires WellFormed(s)
    ensures WellFormed(r.0)
    decreases |batches|
  {
    if batches == [] then (s, false)
    else if Run(s, batches[0]).1 then Run(s, batches[0])
    else RunBatches(Run(s, batches[0]).0, batches[1..])
  }

  /** Whatever batches the reactor has handled since `run` started its
      workers, the partition invariant holds and the counter is at least 1. */
  lemma {:induction false} RunBatchesInv(s: Reactor, batches: seq<seq<Event>>)
    requires Inv(s)
    ensures Inv(RunBatches(s, batches).0)
    ensures RunBatches(s, batches).0.numWorkers == s.numWorkers
    decreases |batches|
  {
    if batches != [] {
      RunInv(s, batches[0]);
      if !Run(s, batches[0]).1 {
        RunBatchesInv(Run(s, batches[0]).0, batches[1..]);
      }
    }
  }

  lemma ReachableInv(numWorkers: nat, batches: seq<seq<Event>>)
    ensures Inv(RunBatches(Started(numWorkers), batches).0)
  {
    StartedInv(numWorkers);
    RunBatchesInv(Started(numWorkers), batches);
  }

  /** A connection's events go to the worker that was told of the
      connection. */
  lemma EventsReachOwner(s: Reactor, w1: nat, i: nat, w2: nat, j: nat)
    requires Inv(s)
    requires w1 < |s.queues| && i < |s.queues[w1]| && s.queues[w1][i].NewConn?
    requires w2 < |s.queues| && j < |s.queues[w2]| && s.queues[w2][j].ConnEvent?
    requires s.queues[w1][i].id == s.queues[w2][j].id
    ensures w1 == w2
  {
  }

  /** No id is handed out twice, whichever workers are compared. */
  lemma NewConnIdsUnique(s: Reactor, w1: nat, i: nat, w2: nat, j: nat)
    requires Inv(s)
    requires w1 < |s.queues| && i < |s.queues[w1]| && s.queues[w1][i].NewConn?
    requires w2 < |s.queues| && j < |s.queues[w2]| && s.queues[w2][j].NewConn?
    requires (w1, i) != (w2, j)
    ensures s.queues[w1][i].id != s.queues[w2][j].id
  {
    if w1 == w2 {
      if i < j {
        assert s.queues[w1][i].id < s.queues[w1][j].id;
      } else {
        assert s.queues[w1][j].id < s.queues[w1][i].id;
      }
    }
  }

  /** With no workers the first event the reactor handles panics it. */
  lemma NoWorkersPanics(s: Reactor, events: seq<Event>)
    requires WellFormed(s) && s.numWorkers == 0 && events != []
    ensures Run(s, events) == (s, true)
  {
  }

  // ---------------------------------------------------------------------
  // The imperative reactor

  class EventLoop {
    const host: Bytes
    const numWorkers: nat
    var nextConn: nat
    /** Everything sent so far on each worker's channel, oldest first. */
    var workers: seq<seq<Msg>>

    function State(): Reactor
      reads this
    {
      Reactor(numWorkers, nextConn, workers)
    }

    /** `EventLoop::new` followed by the set-up part of `run`: one channel
        per worker, and the counter at 1. */
    constructor (host: Bytes, numWorkers: nat)
      ensures this.host == host
      ensures State() == Started(numWorkers)
    {
      this.host := host;
      this.numWorkers := numWorkers;
      nextConn := 1;
      var queues := [];
      for i := 0 to numWorkers
        invariant queues == seq(i, _ => [])
      {
        queues := queues + [[]];
      }
      workers := queues;
    }

    /** One turn of `run`'s outer loop: a failed poll panics; otherwise the
        batch is handled in order, one accept per listener event. */
    method Poll(polled: PollResult) returns (panicked: bool)
      requires WellFormed(State())
      modifies this
      ensures polled.PollError? ==> panicked && State() == old(State())
      ensures polled.Events? ==> (State(), panicked) == Run(old(State()), polled.events)
    {
      if polled.PollError? {
        return true;
      }
      var events := polled.events;
      panicked := false;
      var i := 0;
      while i < |events|
        invariant i <= |events|
        invariant WellFormed(State())
        invariant Run(old(State()), events) == Run(State(), events[i..])
      {
        var e := events[i];
        assert events[i..][1..] == events[i + 1..];
        if e.token == SERVER {
          if e.accept.AcceptFailed? || !e.accept.registered || numWorkers == 0 {
            return true;
          }
          var w := nextConn % numWorkers;
          workers := workers[w := workers[w] + [NewConn(nextConn, e.accept.stream)]];
          nextConn := nextConn + 1;
        } else {
          if numWorkers == 0 {
            return true;
          }
          var w := e.token % numWorkers;
          workers := workers[w := workers[w] + [ConnEvent(e.token, e.kind)]];
        }
        i := i + 1;
      }
    }
  }
}

=== FILE: handler_lib.dfy ===
/** The routing application of src/handler_lib.rs: an `App` that reads a
    connection, asks its request builder for a request, and routes it.

    The request builder (`RequestBuilder`) is not defined in any file of
    this model; what its `read` yields is the parameter `parsed`. Route
    patterns are used as given, without anchoring. */
module HandlerLib {
  import opened Bytes
  import opened Routing

  /** A route as the application is configured with it. */
  datatype HandlerRoute = HandlerRoute(route: Bytes, handler: Handler)

  /** The incremental request parser. Its behaviour is not modelled; the
      object stands for the per-application parser state. */
  class RequestBuilder {
    constructor () {}
  }

  /** The application: its rules and its request builder. Neither field is
      reassigned after construction; handling changes only the state of the
      handler objects and of the builder. */
  class HandlerApp {
    const handlers: seq<HandlerRule>
    const builder: RequestBuilder

    /** `HandlerApp::new`: one rule per route, in order, with the route text
        as its pattern and a new instance of its handler; a new builder. */
    constructor (defs: seq<HandlerRoute>)
      ensures |handlers| == |defs|
      ensures forall i | 0 <= i < |defs| ::
                handlers[i].pattern == defs[i].route && handlers[i].handler.kind == defs[i].handler.kind
      ensures forall i | 0 <= i < |defs| :: fresh(handlers[i].handler)
      ensures forall i, j | 0 <= i < j < |handlers| :: handlers[i].handler != handlers[j].handler
      ensures fresh(builder)
    {
      var given := seq(|defs|, i requires 0 <= i < |defs| => HandlerRule(defs[i].route, defs[i].handler));
      var rules := DuplicateRules(given);
      handlers := rules;
      builder := new RequestBuilder();
    }

    /** `App::handle`: when the builder yields a request, the first matching
        rule's handler runs and the not-found response is sent after it;
        when it yields nothing, nothing is sent. */
    method Handle(parsed: Option<Request>, matches: (Bytes, Bytes) -> bool) returns (effects: seq<Effect>)
      ensures parsed.None? ==> effects == []
      ensures parsed.Some? ==> effects == Respond(handlers, parsed.value, matches)
    {
      effects := [];
      if parsed.Some? {
        effects := Route(handlers, parsed.value, matches);
      }
    }

    /** `App::duplicate`: same patterns in the same order, a new instance
        of every handler, a new builder. */
    method Duplicate() returns (app: HandlerApp)
      ensures fresh(app) && fresh(app.builder)
      ensures |app.handlers| == |handlers|
      ensures forall i | 0 <= i < |handlers| ::
                app.handlers[i].pattern == handlers[i].pattern &&
                app.handlers[i].handler.kind == handlers[i].handler.kind
      ensures forall i | 0 <= i < |handlers| :: fresh(app.handlers[i].handler)
      ensures forall i, j | 0 <= i < j < |app.handlers| :: app.handlers[i].handler != app.handlers[j].handler
    {
      var rules := DuplicateRules(handlers);
      app := new HandlerApp.FromParts(rules);
    }

    constructor FromParts(rules: seq<HandlerRule>)
      ensures handlers == rules && fresh(builder)
    {
      handlers := rules;
      builder := new RequestBuilder();
    }
  }
}

=== FILE: http.dfy ===
/** Responses and their wire form, and the per-connection record of
    src/http.rs.

    A `Response` is updated in place; its abstract value is `ResponseValue`
    and every mutating method is specified by one of the value functions
    (`WithStatus`, `WithHeader`, `WithBody`). `as_bytes` is specified by
    `Wire`; its header order is whatever the hash map yields, so it is
    stated for SOME enumeration of the header names. */
module Http {
  import opened Bytes

  /** An OS socket handle; sockets carry no behaviour in this model. */
  datatype TcpStream = TcpStream(handle: nat)

  datatype Status = Status(code: nat, desc: Bytes)

  /** `Status::ok()`. */
  const OK: Status := Status(200, Ascii("OK"))

  const HTTP11: Bytes := Ascii("HTTP/1.1")
  const CONTENT_LENGTH: Bytes := Ascii("Content-Length")
  const CONTENT_TYPE: Bytes := Ascii("Content-Type")
  const TEXT_HTML: Bytes := Ascii("text/html")
  /** The fixed page `Connection::process` answers with. */
  const PAGE: Bytes := Ascii("<h1>Yiiiiihaaaaa</h1>")

  datatype ResponseValue = ResponseValue(
    version: Bytes,
    status: Status,
    headers: map<Bytes, Bytes>,
    body: Bytes)

  /** The value `Response::new()` builds. */
  const NEW_RESPONSE: ResponseValue := ResponseValue(HTTP11, OK, map[], [])

  function WithStatus(v: ResponseValue, s: Status): ResponseValue {
    v.(status := s)
  }

  function WithHeader(v: ResponseValue, name: Bytes, value: Bytes): ResponseValue {
    v.(headers := v.headers[name := value])
  }

  /** Append to the body, then record the new total in Content-Length. */
  function WithBody(v: ResponseValue, b: Bytes): ResponseValue {
    var body := v.body + b;
    WithHeader(v.(body := body), CONTENT_LENGTH, Decimal(|body|))
  }

  /** The body appended chunk by chunk, in order. */
  function WithBodies(v: ResponseValue, chunks: seq<Bytes>): ResponseValue {
    if chunks == [] then v
    else WithBody(WithBodies(v, chunks[..|chunks| - 1]), chunks[|chunks| - 1])
  }

  /** After one append, Content-Length reads back as the whole body's length. */
  lemma WithBodyContentLength(v: ResponseValue, b: Bytes)
    ensures CONTENT_LENGTH in WithBody(v, b).headers
    ensures WithBody(v, b).body == v.body + b
    ensures ParseDecimal(WithBody(v, b).headers[CONTENT_LENGTH]) == |v.body| + |b|
    ensures forall n | n in v.headers && n != CONTENT_LENGTH ::
              n in WithBody(v, b).headers && WithBody(v, b).headers[n] == v.headers[n]
  {
    ParseDecimalOfDecimal(|v.body| + |b|);
  }

  /** Repeated appends accumulate: the body is the old body followed by every
      chunk, and Content-Length is the cumulative length, not the last chunk's. */
  lemma {:induction false} WithBodiesCumulative(v: ResponseValue, chunks: seq<Bytes>)
    ensures WithBodies(v, chunks).body == v.body + Flatten(chunks)
    ensures WithBodies(v, chunks).version == v.version
    ensures WithBodies(v, chunks).status == v.status
    ensures chunks != [] ==>
              CONTENT_LENGTH in WithBodies(v, chunks).headers &&
              ParseDecimal(WithBodies(v, chunks).headers[CONTENT_LENGTH]) == |v.body| + |Flatten(chunks)|
  {
    if chunks != [] {
      var init, last := chunks[..|chunks| - 1], chunks[|chunks| - 1];
      assert chunks == init + [last];
      WithBodiesCumulative(v, init);
      FlattenSnoc(init, last);
      WithBodyContentLength(WithBodies(v, init), last);
    }
  }

  // ---------------------------------------------------------------------
  // Wire form (sections 3.1.2 and 3.2 of RFC 7230, plus one trailing CRLF)

  /** `version SP code SP reason CRLF`. */
  function StatusLine(v: ResponseValue): Bytes {
    v.version + [SP] + Decimal(v.status.code) + [SP] + v.status.desc + CRLF
  }

  /** `name: value CRLF`. */
  function HeaderLine(name: Bytes, value: Bytes): Bytes {
    name + [COLON, SP] + value + CRLF
  }

  /** One header line per name of `order`, in that order. */
  function HeaderBlock(h: map<Bytes, Bytes>, order: seq<Bytes>): Bytes
    requires forall i | 0 <= i < |order| :: order[i] in h
  {
    if order == [] then []
    else HeaderBlock(h, order[..|order| - 1]) + HeaderLine(order[|order| - 1], h[order[|order| - 1]])
  }

  /** `order` lists every name of `keys` exactly once. */
  ghost predicate IsEnumeration(order: seq<Bytes>, keys: set<Bytes>) {
    && (forall i | 0 <= i < |order| :: order[i] in keys)
    && (forall k | k in keys :: k in order)
    && (forall i, j | 0 <= i < j < |order| :: order[i] != order[j])
  }

  function Head(v: ResponseValue, order: seq<Bytes>): Bytes
    requires forall i | 0 <= i < |order| :: order[i] in v.headers
  {
    StatusLine(v) + HeaderBlock(v.headers, order)
  }

  /** What `as_bytes` produces when the header map yields the names in `order`. */
  function Wire(v: ResponseValue, order: seq<Bytes>): Bytes
    requires forall i | 0 <= i < |order| :: order[i] in v.headers
  {
    Head(v, order) + CRLF + v.body + CRLF
  }

  // ---------------------------------------------------------------------
  // Reading the wire form back: the head ends at the first CRLF CRLF.

  predicate SeparatorAt(w: Bytes, i: nat) {
    i + 4 <= |w| && w[i] == CR && w[i + 1] == LF && w[i + 2] == CR && w[i + 3] == LF
  }

  /** The first position at or after `from` where CRLF CRLF starts. */
  function FindSeparator(w: Bytes, from: nat): (r: Option<nat>)
    decreases |w| - from
    ensures r.Some? ==> from <= r.value && SeparatorAt(w, r.value)
  {
    if from + 4 > |w| then None
    else if SeparatorAt(w, from) then Some(from)
    else FindSeparator(w, from + 1)
  }

  /** What a reader takes as the message after the header section. */
  function AfterHead(w: Bytes): Option<Bytes> {
    match FindSeparator(w, 0)
    case None => None
    case Some(i) => Some(w[i + 4..])
  }

  lemma {:induction false} FindSeparatorFirst(w: Bytes, from: nat, k: nat)
    requires from <= k && SeparatorAt(w, k)
    requires forall j | from <= j < k :: !SeparatorAt(w, j)
    ensures FindSeparator(w, from) == Some(k)
    decreases k - from
  {
    if from < k {
      FindSeparatorFirst(w, from + 1, k);
    }
  }

  /** No blank line starts inside `s`: a CRLF is never followed by CR. */
  predicate NoBlankLineWithin(s: Bytes) {
    forall i | 0 <= i && i + 2 < |s| :: !(s[i] == CR && s[i + 1] == LF && s[i + 2] == CR)
  }

  /** A non-empty line without breaks, then CRLF. */
  predicate IsLine(s: Bytes) {
    |s| >= 3 && s[0] != CR && s[|s| - 2] == CR && s[|s| - 1] == LF && NoBlankLineWithin(s)
  }

  lemma TerminatedLine(x: Bytes)
    requires |x| >= 1 && NoLineBreak(x)
    ensures IsLine(x + CRLF)
  {
    var s := x + CRLF;
    forall i | 0 <= i && i + 2 < |s| ensures !(s[i] == CR && s[i + 1] == LF && s[i + 2] == CR) {
      assert s[i] == x[i];
    }
  }

  /** Lines glue into text with no blank line inside. */
  lemma GlueLines(a: Bytes, b: Bytes)
    requires IsLine(a) && IsLine(b)
    ensures IsLine(a + b)
  {
    var s := a + b;
    forall i | 0 <= i && i + 2 < |s| ensures !(s[i] == CR && s[i + 1] == LF && s[i + 2] == CR) {
      if i + 2 < |a| {
        assert s[i] == a[i] && s[i + 1] == a[i + 1] && s[i + 2] == a[i + 2];
      } else if i == |a| - 2 {
        assert s[i + 2] == b[0];
      } else if i == |a| - 1 {
        assert s[i] == LF;
      } else {
        assert s[i] == b[i - |a|] && s[i + 1] == b[i + 1 - |a|] && s[i + 2] == b[i + 2 - |a|];
      }
    }
  }

  /** Every status field and header field is free of CR and LF. */
  ghost predicate FieldsWithoutBreaks(v: ResponseValue) {
    && NoLineBreak(v.version)
    && NoLineBreak(v.status.desc)
    && (forall n | n in v.headers :: NoLineBreak(n) && NoLineBreak(v.headers[n]))
  }

  lemma {:induction false} HeadIsLines(v: ResponseValue, order: seq<Bytes>)
    requires forall i | 0 <= i < |order| :: order[i] in v.headers
    requires FieldsWithoutBreaks(v)
    ensures IsLine(Head(v, order))
  {
    if order == [] {
      var x := v.version + [SP] + Decimal(v.status.code) + [SP] + v.status.desc;
      DecimalNoLineBreak(v.status.code);
      assert NoLineBreak(x) by {
        forall i | 0 <= i < |x| ensures x[i] != CR && x[i] != LF {
          var d := Decimal(v.status.code);
          if i < |v.version| {
            assert x[i] == v.version[i];
          } else if i == |v.version| {
          } else if i < |v.version| + 1 + |d| {
            assert x[i] == d[i - |v.version| - 1];
          } else if i == |v.version| + 1 + |d| {
          } else {
            assert x[i] == v.status.desc[i - |v.version| - 2 - |d|];
          }
        }
      }
      TerminatedLine(x);
      assert Head(v, order) == x + CRLF;
    } else {
      var init, name := order[..|order| - 1], order[|order| - 1];
      HeadIsLines(v, init);
      var value := v.headers[name];
      var x := name + [COLON, SP] + value;
      assert NoLineBreak(x) by {
        forall i | 0 <= i < |x| ensures x[i] != CR && x[i] != LF {
          if i < |name| {
            assert x[i] == name[i];
          } else if i < |name| + 2 {
          } else {
            assert x[i] == value[i - |name| - 2];
          }
        }
      }
      TerminatedLine(x);
      assert HeaderLine(name, value) == x + CRLF;
      GlueLines(Head(v, init), HeaderLine(name, value));
      assert Head(v, order) == Head(v, init) + HeaderLine(name, value);
    }
  }

  /** Framing of `as_bytes`: when no field holds a line break, the first
      CRLF CRLF is the end of the header section, and what follows it is the
      body and then one more CRLF. So the bytes after the head are two more
      than the body, which is what Content-Length counts. */
  lemma WireFraming(v: ResponseValue, order: seq<Bytes>)
    requires forall i | 0 <= i < |order| :: order[i] in v.headers
    requires FieldsWithoutBreaks(v)
    ensures FindSeparator(Wire(v, order), 0) == Some(|Head(v, order)| - 2)
    ensures AfterHead(Wire(v, order)) == Some(v.body + CRLF)
    ensures CONTENT_LENGTH in v.headers && v.headers[CONTENT_LENGTH] == Decimal(|v.body|) ==>
              |AfterHead(Wire(v, order)).value| == ParseDecimal(v.headers[CONTENT_LENGTH]) + 2
  {
    var h := Head(v, order);
    var w := Wire(v, order);
    HeadIsLines(v, order);
    assert w == h + CRLF + v.body + CRLF;
    forall j | 0 <= j < |h| - 2 ensures !SeparatorAt(w, j) {
      assert w[j] == h[j] && w[j + 1] == h[j + 1] && w[j + 2] == h[j + 2];
    }
    assert SeparatorAt(w, |h| - 2);
    FindSeparatorFirst(w, 0, |h| - 2);
    assert w[|h| + 2..] == v.body + CRLF;
    ParseDecimalOfDecimal(|v.body|);
  }

  // ---------------------------------------------------------------------
  // The mutable response

  class Response {
    var version: Bytes
    var status: Status
    var headers: map<Bytes, Bytes>
    var body: Bytes

    function Value(): ResponseValue
      reads this
    {
      ResponseValue(version, status, headers, body)
    }

    /** `Response::new`: HTTP/1.1, 200 OK, no headers, empty body. */
    constructor ()
      ensures Value() == NEW_RESPONSE
    {
      version := HTTP11;
      status := OK;
      headers := map[];
      body := [];
    }

    method SetStatus(s: Status)
      modifies this
      ensures Value() == WithStatus(old(Value()), s)
    {
      status := s;
    }

    /** Insert with overwrite; every other header is kept. */
    method SetHeader(name: Bytes, value: Bytes)
      modifies this
      ensures Value() == WithHeader(old(Value()), name, value)
      ensures headers[name] == value
      ensures forall n | n in old(headers) && n != name :: n in headers && headers[n] == old(headers)[n]
      ensures headers.Keys == old(headers).Keys + {name}
    {
      headers := headers[name := value];
    }

    method SetBodyBytes(b: Bytes)
      modifies this
      ensures Value() == WithBody(old(Value()), b)
      ensures body == old(body) + b
      ensures headers[CONTENT_LENGTH] == Decimal(|body|)
    {
      body := body + b;
      var value := Decimal(|body|);
      SetHeader(CONTENT_LENGTH, value);
    }

    /** The bytes of a string are the string itself in this model. */
    method SetBody(s: Bytes)
      modifies this
      ensures Value() == WithBody(old(Value()), s)
    {
      SetBodyBytes(s);
    }

    /** Serialise: status line, one line per header in the map's own order,
        a blank line, the body, and a final CRLF. */
    method AsBytes() returns (w: Bytes, ghost order: seq<Bytes>)
      ensures IsEnumeration(order, headers.Keys)
      ensures w == Wire(Value(), order)
    {
      w := version + [SP] + Decimal(status.code) + [SP] + status.desc + CRLF;
      var remaining := headers.Keys;
      order := [];
      while remaining != {}
        invariant remaining <= headers.Keys
        invariant forall i | 0 <= i < |order| :: order[i] in headers && order[i] !in remaining
        invariant forall k | k in headers :: k in remaining || k in order
        invariant forall i, j | 0 <= i < j < |order| :: order[i] != order[j]
        invariant w == Head(Value(), order)
        decreases remaining
      {
        var name :| name in remaining;
        w := w + HeaderLine(name, headers[name]);
        assert (order + [name])[..|order|] == order;
        order := order + [name];
        remaining := remaining - {name};
      }
      w := w + CRLF + body + CRLF;
    }
  }

  // ---------------------------------------------------------------------
  // The connection record

  /** The parser states declared by the source; nothing advances them. */
  datatype State = ParseRequestLine | ParseHeaders | ParseBody

  /** One `process` call's effect on the response: status 200, Content-Type
      text/html, and the page appended to the body. */
  function Answered(v: ResponseValue): ResponseValue {
    WithBody(WithHeader(WithStatus(v, OK), CONTENT_TYPE, TEXT_HTML), PAGE)
  }

  /** The response of a connection after `k` calls to `process`. */
  function AnsweredTimes(k: nat): ResponseValue {
    if k == 0 then NEW_RESPONSE else Answered(AnsweredTimes(k - 1))
  }

  /** The response is never reset: after `k >= 1` calls it is 200 OK with
      exactly two headers, and its body is `k` copies of the page, whose
      length Content-Length states. */
  lemma {:induction false} AnsweredTimesShape(k: nat)
    requires k >= 1
    ensures AnsweredTimes(k) == ResponseValue(
              HTTP11, OK,
              map[CONTENT_TYPE := TEXT_HTML, CONTENT_LENGTH := Decimal(k * |PAGE|)],
              Repeat(PAGE, k))
    ensures ParseDecimal(AnsweredTimes(k).headers[CONTENT_LENGTH]) == |AnsweredTimes(k).body|
  {
    RepeatLength(PAGE, k);
    if k > 1 {
      AnsweredTimesShape(k - 1);
      RepeatLength(PAGE, k - 1);
    }
    ParseDecimalOfDecimal(k * |PAGE|);
  }

  class Connection {
    const socket: TcpStream
    var data: Bytes
    var parsed: nat
    var response: Response
    var state: State
    /** How many times `process` has run on this connection. */
    ghost var calls: nat

    ghost predicate Valid()
      reads this, response
    {
      response.Value() == AnsweredTimes(calls)
    }

    /** `Connection::new`: parser at the request line, nothing buffered. */
    constructor (socket: TcpStream)
      ensures Valid() && fresh(response)
      ensures this.socket == socket
      ensures state == ParseRequestLine && data == [] && parsed == 0 && calls == 0
    {
      this.socket := socket;
      state := ParseRequestLine;
      data := [];
      parsed := 0;
      response := new Response();
      calls := 0;
    }

    /** `Connection::process`: `incoming` is what `read_to_end` delivered and
        `written` is what is handed to `write`. The buffer only grows, the
        parser state does not move, and the same response gets the page once more. */
    method Process(incoming: Bytes) returns (written: Bytes, ghost order: seq<Bytes>)
      requires Valid()
      modifies this, response
      ensures Valid() && calls == old(calls) + 1
      ensures response == old(response)
      ensures data == old(data) + incoming
      ensures state == old(state) && parsed == old(parsed)
      ensures response.Value() == Answered(old(response.Value()))
      ensures IsEnumeration(order, response.headers.Keys)
      ensures written == Wire(response.Value(), order)
    {
      data := data + incoming;
      if state == ParseRequestLine {
      }
      response.SetStatus(OK);
      response.SetHeader(CONTENT_TYPE, TEXT_HTML);
      response.SetBody(PAGE);
      calls := calls + 1;
      written, order := response.AsBytes();
    }
  }
}

=== FILE: http_file.dfy ===
/** Static files, src/http_file.rs: the content type chosen from a path and
    the found/not-found decision of `serve`.

    The disk is an oracle: `Disk` maps each full path to what `metadata`,
    `File::open` and the read loop would see. The response methods `serve`
    calls (`set_length`, `send`, `send_data`, `set_not_found`) do not exist
    on `Response` in src/http.rs, so `serve` is modelled by the sequence of
    calls it makes on the response, in order. */
module HttpFile {
  import opened Bytes
  import Http

  const TEXT_CSS: Bytes := Ascii("text/css")
  const TEXT_JAVASCRIPT: Bytes := Ascii("text/javascript")
  const IMAGE_JPEG: Bytes := Ascii("image/jpeg")
  const IMAGE_PNG: Bytes := Ascii("image/png")
  const IMAGE_SVG: Bytes := Ascii("image/svg+xml")
  const FONT_WOFF: Bytes := Ascii("application/x-font-woff")
  const OCTET_STREAM: Bytes := Ascii("application/octet-stream")

  /** The only content types `get_mime` ever answers. */
  const MIME_TYPES: set<Bytes> :=
    {Http.TEXT_HTML, TEXT_CSS, TEXT_JAVASCRIPT, IMAGE_JPEG, IMAGE_PNG, IMAGE_SVG, FONT_WOFF, OCTET_STREAM}

  /** `path.rfind('.')`: the position of the last dot, if any. */
  function LastDot(path: Bytes): (r: Option<nat>)
    ensures r.Some? ==> r.value < |path| && path[r.value] == DOT
    ensures r.Some? ==> forall j | r.value < j < |path| :: path[j] != DOT
    ensures r.None? ==> forall j | 0 <= j < |path| :: path[j] != DOT
  {
    if path == [] then None
    else if path[|path| - 1] == DOT then Some(|path| - 1)
    else LastDot(path[..|path| - 1])
  }

  /** The extension table, compared byte for byte (so case-sensitively). */
  function MimeOfExtension(ext: Bytes): Bytes {
    if ext == Ascii("html") then Http.TEXT_HTML
    else if ext == Ascii("css") then TEXT_CSS
    else if ext == Ascii("js") then TEXT_JAVASCRIPT
    else if ext == Ascii("jpg") || ext == Ascii("jpeg") then IMAGE_JPEG
    else if ext == Ascii("png") then IMAGE_PNG
    else if ext == Ascii("svg") then IMAGE_SVG
    else if ext == Ascii("woff") || ext == Ascii("woff2") then FONT_WOFF
    else OCTET_STREAM
  }

  /** `FileSystem::get_mime`: total, one of eight fixed types, decided by the
      text after the last dot; a path without a dot is binary data. */
  function GetMime(path: Bytes): (mime: Bytes)
    ensures mime in MIME_TYPES
    ensures LastDot(path).None? ==> mime == OCTET_STREAM
  {
    match LastDot(path)
    case None => OCTET_STREAM
    case Some(i) => MimeOfExtension(path[i + 1..])
  }

  /** Only the text after the last dot matters: whatever precedes the dot,
      the type is the table's entry for the extension. */
  lemma GetMimeOfExtension(stem: Bytes, ext: Bytes)
    requires forall j | 0 <= j < |ext| :: ext[j] != DOT
    ensures GetMime(stem + [DOT] + ext) == MimeOfExtension(ext)
  {
    var p := stem + [DOT] + ext;
    assert p[|stem|] == DOT;
    assert forall j | |stem| < j < |p| :: p[j] == ext[j - |stem| - 1];
    assert p[|stem| + 1..] == ext;
  }

  /** The eight answers are pairwise different. */
  lemma MimeTypesDistinct()
    ensures |MIME_TYPES| == 8
  {
    LengthsOfTypes();
  }

  /** The lengths of the eight types, and the one pair of equal length
      that differs in its first byte. */
  lemma LengthsOfTypes()
    ensures |Http.TEXT_HTML| == 9 && |TEXT_CSS| == 8 && |TEXT_JAVASCRIPT| == 15 && |IMAGE_JPEG| == 10
    ensures |IMAGE_PNG| == 9 && |IMAGE_SVG| == 13 && |FONT_WOFF| == 23 && |OCTET_STREAM| == 24
    ensures Http.TEXT_HTML != IMAGE_PNG
  {
    assert Http.TEXT_HTML[0] != IMAGE_PNG[0];
  }

  /** Each known type is answered for exactly its extensions: the table read
      backwards. */
  lemma MimeOfExtensionInverse(ext: Bytes)
    ensures MimeOfExtension(ext) == Http.TEXT_HTML <==> ext == Ascii("html")
    ensures MimeOfExtension(ext) == TEXT_CSS <==> ext == Ascii("css")
    ensures MimeOfExtension(ext) == TEXT_JAVASCRIPT <==> ext == Ascii("js")
    ensures MimeOfExtension(ext) == IMAGE_JPEG <==> ext == Ascii("jpg") || ext == Ascii("jpeg")
    ensures MimeOfExtension(ext) == IMAGE_PNG <==> ext == Ascii("png")
    ensures MimeOfExtension(ext) == IMAGE_SVG <==> ext == Ascii("svg")
    ensures MimeOfExtension(ext) == FONT_WOFF <==> ext == Ascii("woff") || ext == Ascii("woff2")
  {
    LengthsOfTypes();
    assert Ascii("css")[0] != Ascii("jpg")[0] && Ascii("css")[0] != Ascii("png")[0];
    assert Ascii("jpg")[0] != Ascii("png")[0] && Ascii("html")[0] != Ascii("jpeg")[0];
  }

  /** Extensions are compared case-sensitively: an upper-case `HTML` is
      binary data. */
  lemma UpperCaseExtensionIsBinary(stem: Bytes)
    ensures GetMime(stem + [DOT] + Ascii("HTML")) == OCTET_STREAM
  {
    GetMimeOfExtension(stem, Ascii("HTML"));
    assert Ascii("HTML")[0] != Ascii("html")[0];
  }

  // ---------------------------------------------------------------------
  // serve

  /** What the disk reports for one path: `metadata` succeeded and says
      regular file or not, its length, whether `File::open` succeeds, and the
      bytes successive reads deliver. */
  datatype FileEntry = FileEntry(isFile: bool, size: nat, opens: bool, contents: Bytes)

  type Disk = map<Bytes, FileEntry>

  /** The read buffer of `serve`: 10 MB. */
  const BUF_SIZE: nat := 10 * 1024 * 1024

  /** The calls `serve` makes on the response. */
  datatype Action =
    | SetStatus(status: Http.Status)
    | SetHeader(name: Bytes, value: Bytes)
    | SetLength(length: nat)
    | Send
    | SendData(data: Bytes)
    | SendNotFound

  /** The bytes of every `SendData`, in order. */
  function Sent(actions: seq<Action>): Bytes {
    if actions == [] then []
    else
      var last := actions[|actions| - 1];
      Sent(actions[..|actions| - 1]) + (if last.SendData? then last.data else [])
  }

  lemma SentSnoc(actions: seq<Action>, a: Action)
    ensures Sent(actions + [a]) == Sent(actions) + (if a.SendData? then a.data else [])
  {
    assert (actions + [a])[..|actions|] == actions;
  }

  lemma {:induction false} SentNoData(actions: seq<Action>)
    requires forall i | 0 <= i < |actions| :: !actions[i].SendData?
    ensures Sent(actions) == []
  {
    if actions != [] {
      SentNoData(actions[..|actions| - 1]);
    }
  }

  /** The path exists, is a regular file and can be opened. */
  predicate Servable(disk: Disk, full: Bytes) {
    full in disk && disk[full].isFile && disk[full].opens
  }

  /** How many bytes one `read` into the buffer returns at offset `pos`. */
  function ReadCount(contents: Bytes, pos: nat): (n: nat)
    requires pos <= |contents|
    ensures n <= BUF_SIZE && pos + n <= |contents|
    ensures n == 0 <==> pos == |contents|
  {
    if |contents| - pos < BUF_SIZE then |contents| - pos else BUF_SIZE
  }

  class FileSystem {
    const path: Bytes

    constructor (path: Bytes)
      ensures this.path == path
    {
      this.path := path;
    }

    /** `FileSystem::serve`: the file at `path ++ uri` (plain concatenation,
        no normalisation) is answered 200 with its type and length sent
        before any data, and then its bytes in chunks of at most 10 MB;
        anything else gets the not-found response. */
    method Serve(uri: Bytes, disk: Disk) returns (actions: seq<Action>)
      ensures !Servable(disk, path + uri) ==> actions == [SendNotFound]
      ensures Servable(disk, path + uri) ==>
                && |actions| >= 4
                && actions[..4] == [ SetStatus(Http.OK),
                                     SetHeader(Http.CONTENT_TYPE, GetMime(path + uri)),
                                     SetLength(disk[path + uri].size),
                                     Send ]
                && (forall i | 4 <= i < |actions| ::
                      actions[i].SendData? && 0 < |actions[i].data| <= BUF_SIZE)
                && Sent(actions) == disk[path + uri].contents
    {
      var full := path + uri;
      if full in disk {
        var m := disk[full];
        if m.isFile {
          if m.opens {
            actions := [SetStatus(Http.OK), SetHeader(Http.CONTENT_TYPE, GetMime(full)), SetLength(m.size), Send];
            SentNoData(actions);
            var pos := 0;
            while true
              invariant pos <= |m.contents|
              invariant |actions| >= 4
              invariant actions[..4] == [ SetStatus(Http.OK), SetHeader(Http.CONTENT_TYPE, GetMime(full)),
                                          SetLength(m.size), Send ]
              invariant forall i | 4 <= i < |actions| ::
                          actions[i].SendData? && 0 < |actions[i].data| <= BUF_SIZE
              invariant Sent(actions) == m.contents[..pos]
              decreases |m.contents| - pos
            {
              var n := ReadCount(m.contents, pos);
              if n > 0 {
                var chunk := m.contents[pos..pos + n];
                SentSnoc(actions, SendData(chunk));
                assert m.contents[..pos + n] == m.contents[..pos] + chunk;
                actions := actions + [SendData(chunk)];
                pos := pos + n;
              } else {
                break;
              }
            }
            assert m.contents[..pos] == m.contents;
            return;
          }
        }
      }
      actions := [SendNotFound];
    }
  }
}

=== FILE: lib.dfy ===
/** The web-server front of src/lib.rs: rule registration with anchored
    patterns, and the per-worker client table with first-match routing.

    `Connection::read` and `Response::new(client)` are not defined in any
    file of this model; what `read` yields is the parameter `parsed`. */
module WebServer {
  import opened Bytes
  import Http
  import opened Routing

  const CARET: byte := 94
  const DOLLAR: byte := 36

  /** `format!("^{}$", pattern)`: the pattern must match the whole URI. */
  function Anchored(pattern: Bytes): Bytes {
    [CARET] + pattern + [DOLLAR]
  }

  /** Anchoring keeps patterns apart: different patterns give different rules. */
  lemma AnchoredInjective(p: Bytes, q: Bytes)
    requires Anchored(p) == Anchored(q)
    ensures p == q
  {
    assert p == Anchored(p)[1..|Anchored(p)| - 1];
    assert q == Anchored(q)[1..|Anchored(q)| - 1];
  }

  class WebServer {
    const host: Bytes
    const numWorkers: nat
    var handlers: seq<HandlerRule>

    /** `WebServer::new`: no rules yet. */
    constructor (host: Bytes, numWorkers: nat)
      ensures this.host == host && this.numWorkers == numWorkers
      ensures handlers == []
    {
      this.host := host;
      this.numWorkers := numWorkers;
      handlers := [];
    }

    /** `add_handler`: one rule appended at the end, its pattern anchored;
        the earlier rules and their order are untouched. */
    method AddHandler(pattern: Bytes, handler: Handler)
      modifies this
      ensures handlers == old(handlers) + [HandlerRule(Anchored(pattern), handler)]
    {
      handlers := handlers + [HandlerRule(Anchored(pattern), handler)];
    }
  }

  /** What one readiness of a client does: the worker panics on an unknown
      id, otherwise the routing effects (none when no request is ready). */
  datatype ReadyOutcome = Panicked | Handled(effects: seq<Effect>)

  class WebServerEventHandler {
    var clients: map<nat, Http.Connection>
    var handlers: seq<HandlerRule>

    constructor (handlers: seq<HandlerRule>)
      ensures this.handlers == handlers && clients == map[]
    {
      this.handlers := handlers;
      clients := map[];
    }

    /** `new_client`: a new connection record under `id`, replacing any
        earlier one; the other ids keep their connections. */
    method NewClient(id: nat, client: Http.TcpStream)
      modifies this
      ensures handlers == old(handlers)
      ensures clients.Keys == old(clients).Keys + {id}
      ensures forall k | k in old(clients) && k != id :: clients[k] == old(clients)[k]
      ensures fresh(clients[id]) && fresh(clients[id].response)
      ensures clients[id].Valid() && clients[id].socket == client
      ensures clients[id].calls == 0 && clients[id].response.Value() == Http.NEW_RESPONSE
      ensures clients[id].state == Http.ParseRequestLine && clients[id].data == [] && clients[id].parsed == 0
    {
      var c := new Http.Connection(client);
      clients := clients[id := c];
    }

    /** `client_ready`: an unknown id panics; otherwise the request the
        connection yields, if any, goes to the first matching rule, and the
        not-found response follows in every case. */
    method ClientReady(id: nat, parsed: Option<Request>, matches: (Bytes, Bytes) -> bool)
      returns (outcome: ReadyOutcome)
      ensures id !in clients <==> outcome == Panicked
      ensures id in clients ==> outcome == Handled(Answer(handlers, parsed, matches))
    {
      if id !in clients {
        return Panicked;
      }
      var effects := [];
      if parsed.Some? {
        effects := Route(handlers, parsed.value, matches);
      }
      outcome := Handled(effects);
    }

    /** `duplicate`: same patterns in the same order, new handler
        instances, no clients. */
    method Duplicate() returns (h: WebServerEventHandler)
      ensures fresh(h) && h.clients == map[]
      ensures |h.handlers| == |handlers|
      ensures forall i | 0 <= i < |handlers| ::
                h.handlers[i].pattern == handlers[i].pattern &&
                h.handlers[i].handler.kind == handlers[i].handler.kind
      ensures forall i | 0 <= i < |handlers| :: fresh(h.handlers[i].handler)
      ensures forall i, j | 0 <= i < j < |h.handlers| :: h.handlers[i].handler != h.handlers[j].handler
    {
      var rules := DuplicateRules(handlers);
      h := new WebServerEventHandler(rules);
    }
  }
}

=== FILE: routing.dfy ===
/** Ordered first-match routing, shared by src/lib.rs and src/handler_lib.rs.

    Both files declare the same `Handler` capability (`process`,
    `duplicate`) and the same rule record (a compiled pattern and a boxed
    handler), and both walk the rules with the same `for ... break` loop.
    Regular-expression matching is a foreign library: it is the parameter
    `matches(pattern, text)`, about which nothing is assumed. */
module Routing {
  import opened Bytes

  /** A parsed request as far as routing sees it: its URI. */
  datatype Request = Request(uri: Bytes)

  /** A handler instance. What it does is outside the model; `kind` names
      its behaviour and each object may carry its own state. */
  class Handler {
    const kind: nat

    constructor (kind: nat)
      ensures this.kind == kind
    {
      this.kind := kind;
    }

    /** `duplicate`: a new, independent instance of the same behaviour. */
    method Duplicate() returns (h: Handler)
      ensures fresh(h) && h.kind == kind
    {
      h := new Handler(kind);
    }
  }

  datatype HandlerRule = HandlerRule(pattern: Bytes, handler: Handler)

  /** What handling one request does to the response, in order. */
  datatype Effect =
    | Invoke(rule: nat)   // `handler.process(r, resp)` of that rule
    | SendNotFound        // the canned 404 response

  /** The first rule at or after `from` whose pattern matches `uri`. */
  function FirstMatchFrom(rules: seq<HandlerRule>, uri: Bytes, matches: (Bytes, Bytes) -> bool, from: nat)
    : (r: Option<nat>)
    requires from <= |rules|
    decreases |rules| - from
    ensures r.Some? ==> from <= r.value < |rules| && matches(rules[r.value].pattern, uri)
    ensures r.Some? ==> forall j | from <= j < r.value :: !matches(rules[j].pattern, uri)
    ensures r.None? ==> forall j | from <= j < |rules| :: !matches(rules[j].pattern, uri)
  {
    if from == |rules| then None
    else if matches(rules[from].pattern, uri) then Some(from)
    else FirstMatchFrom(rules, uri, matches, from + 1)
  }

  function FirstMatch(rules: seq<HandlerRule>, uri: Bytes, matches: (Bytes, Bytes) -> bool): Option<nat> {
    FirstMatchFrom(rules, uri, matches, 0)
  }

  /** The handler of the first matching rule, if any, and then the
      not-found response in every case. */
  function Respond(rules: seq<HandlerRule>, r: Request, matches: (Bytes, Bytes) -> bool): seq<Effect> {
    match FirstMatch(rules, r.uri, matches)
    case Some(i) => [Invoke(i), SendNotFound]
    case None => [SendNotFound]
  }

  /** Handling one readiness of a connection: nothing when the parser
      yields no request, otherwise `Respond`. */
  function Answer(rules: seq<HandlerRule>, parsed: Option<Request>, matches: (Bytes, Bytes) -> bool)
    : seq<Effect>
  {
    match parsed
    case None => []
    case Some(r) => Respond(rules, r, matches)
  }

  /** The first matching rule is determined by the matches alone. */
  lemma FirstMatchIs(rules: seq<HandlerRule>, uri: Bytes, matches: (Bytes, Bytes) -> bool, k: nat)
    requires k < |rules| && matches(rules[k].pattern, uri)
    requires forall j | 0 <= j < k :: !matches(rules[j].pattern, uri)
    ensures FirstMatch(rules, uri, matches) == Some(k)
  {
  }

  /** At most one handler runs, it is the first matching rule in
      registration order, and the not-found response always comes last. */
  lemma RespondInvokesFirstMatchOnly(rules: seq<HandlerRule>, r: Request, matches: (Bytes, Bytes) -> bool)
    ensures 1 <= |Respond(rules, r, matches)| <= 2
    ensures Respond(rules, r, matches)[|Respond(rules, r, matches)| - 1] == SendNotFound
    ensures forall i: nat :: Invoke(i) in Respond(rules, r, matches) <==>
              i < |rules| && matches(rules[i].pattern, r.uri) &&
              forall j | 0 <= j < i :: !matches(rules[j].pattern, r.uri)
  {
    forall i: nat | i < |rules| && matches(rules[i].pattern, r.uri) &&
                    (forall j | 0 <= j < i :: !matches(rules[j].pattern, r.uri))
      ensures FirstMatch(rules, r.uri, matches) == Some(i)
    {
      FirstMatchIs(rules, r.uri, matches, i);
    }
  }

  /** Registering more rules never changes the rule that already serves a
      URI; a URI no rule served can only go to one of the new rules. */
  lemma FirstMatchExtend(rules: seq<HandlerRule>, more: seq<HandlerRule>, uri: Bytes,
                         matches: (Bytes, Bytes) -> bool)
    ensures FirstMatch(rules, uri, matches).Some? ==>
              FirstMatch(rules + more, uri, matches) == FirstMatch(rules, uri, matches)
    ensures FirstMatch(rules, uri, matches).None? ==>
              match FirstMatch(more, uri, matches)
              case None => FirstMatch(rules + more, uri, matches).None?
              case Some(i) => FirstMatch(rules + more, uri, matches) == Some(|rules| + i)
  {
    var all := rules + more;
    var b := FirstMatch(rules, uri, matches);
    var c := FirstMatch(more, uri, matches);
    assert forall j | 0 <= j < |rules| :: all[j] == rules[j];
    assert forall j | 0 <= j < |more| :: all[|rules| + j] == more[j];
    if b.Some? {
      FirstMatchIs(all, uri, matches, b.value);
    } else if c.Some? {
      forall j | 0 <= j < |rules| + c.value ensures !matches(all[j].pattern, uri) {
        if j >= |rules| {
          assert all[j] == more[j - |rules|];
        }
      }
      FirstMatchIs(all, uri, matches, |rules| + c.value);
    } else {
      forall j | 0 <= j < |all| ensures !matches(all[j].pattern, uri) {
        if j >= |rules| {
          assert all[j] == more[j - |rules|];
        }
      }
    }
  }

  /** Two rule lists with the same patterns in the same order. */
  predicate SamePatterns(a: seq<HandlerRule>, b: seq<HandlerRule>) {
    |a| == |b| && forall i | 0 <= i < |a| :: a[i].pattern == b[i].pattern
  }

  lemma {:induction false} FirstMatchFromSamePatterns(a: seq<HandlerRule>, b: seq<HandlerRule>, uri: Bytes,
                                                      matches: (Bytes, Bytes) -> bool, from: nat)
    requires SamePatterns(a, b) && from <= |a|
    ensures FirstMatchFrom(a, uri, matches, from) == FirstMatchFrom(b, uri, matches, from)
    decreases |a| - from
  {
    if from < |a| {
      FirstMatchFromSamePatterns(a, b, uri, matches, from + 1);
    }
  }

  /** Routing sees only the patterns: duplicated rule lists, whose handlers
      are other objects, answer every request alike. */
  lemma AnswerSamePatterns(a: seq<HandlerRule>, b: seq<HandlerRule>, parsed: Option<Request>,
                           matches: (Bytes, Bytes) -> bool)
    requires SamePatterns(a, b)
    ensures Answer(a, parsed, matches) == Answer(b, parsed, matches)
  {
    if parsed.Some? {
      FirstMatchFromSamePatterns(a, b, parsed.value.uri, matches, 0);
    }
  }

  /** The `for ... break` loop over the rules, then the not-found response. */
  method Route(rules: seq<HandlerRule>, r: Request, matches: (Bytes, Bytes) -> bool)
    returns (effects: seq<Effect>)
    ensures effects == Respond(rules, r, matches)
  {
    effects := [];
    var i := 0;
    while i < |rules|
      invariant i <= |rules|
      invariant effects == []
      invariant forall j | 0 <= j < i :: !matches(rules[j].pattern, r.uri)
    {
      if matches(rules[i].pattern, r.uri) {
        effects := [Invoke(i)];
        break;
      }
      i := i + 1;
    }
    effects := effects + [SendNotFound];
  }

  /** The duplication loop: same patterns in the same order, a new
      instance of every handler, no two rules sharing an instance. */
  method DuplicateRules(rules: seq<HandlerRule>) returns (copy: seq<HandlerRule>)
    ensures |copy| == |rules|
    ensures forall i | 0 <= i < |rules| ::
              copy[i].pattern == rules[i].pattern && copy[i].handler.kind == rules[i].handler.kind
    ensures forall i | 0 <= i < |rules| :: fresh(copy[i].handler)
    ensures forall i, j | 0 <= i < j < |copy| :: copy[i].handler != copy[j].handler
  {
    copy := [];
    for i := 0 to |rules|
      invariant |copy| == i
      invariant forall k | 0 <= k < i ::
                  copy[k].pattern == rules[k].pattern && copy[k].handler.kind == rules[k].handler.kind
      invariant forall k | 0 <= k < i :: fresh(copy[k].handler)
      invariant forall k, l | 0 <= k < l < i :: copy[k].handler != copy[l].handler
    {
      var h := rules[i].handler.Duplicate();
      copy := copy + [HandlerRule(rules[i].pattern, h)];
    }
  }
}
